=== FILE: README.md ===
# Properties table — a Dafny model

This project models the state logic of the `PropertiesTable` component of a
property-management dashboard. The component shows a paginated, selectable
list of property records. Each row has a selector that picks one of the
property's external channels (listing platforms).

What is modelled:

- **Pagination.** `applyPagination` slices the row list with JavaScript's
  `Array.prototype.slice`. The model gives slice's ECMA-262 semantics for all
  integers, including negative indices that count from the end. The slice is
  written twice: as a function, and as the standard's element-by-element copy
  loop, and the two are proved equal.
- **Page state.** The page and the page size, and their two setters.
- **Selection.** The four selection flags, the header row, the header
  checkbox, and the requests that checkbox changes send to the selection hook.
  The selection is an input set of ids.
- **Channel choices.** The per-row channel map (`selectValues`): its
  `reduce`-built initial value, its single-key update, its lookup, and the
  options each row's selector offers.
- **Composition.** The component as a state (page state plus channel map), a
  handler for user events, and a render function producing the header and
  body rows.

Modules: `Options` (undefined values), `Properties` (records, `rowIds`, id
sets), `JsArray` (slice), `Pagination`, `Selection`, `SelectValues`,
`PropertiesTable`.

Two behaviours of the code shape the model:

- The channel map is built once, as the `useState` initial value (lines
  70-75), so a later row list is not re-initialised. For an id first seen in
  a later list, the selector's `value` prop is undefined and the selector
  selects its `defaultValue`, `'None'` (`LaterRowsAreNotInitialised`); a
  stored choice the new list no longer offers leaves the selector blank
  (`UnofferedChoiceShowsBlank`).
- The pagination control offers page sizes 5, 10 and 25, but line 187 stores
  whatever integer `parseInt` returns, so the model takes any `int` as the
  page size. Its pagination properties are stated for a page `>= 0` and a
  page size `> 0`.

## Model

| member | source | states |
|---|---|---|
| Properties.RowIds | src/components/dashboard/properties/properties-table.tsx:57-59 | the id list has one entry per row, in row order, and entry `i` is row `i`'s id |
| Properties.IdSetSize | src/components/dashboard/properties/properties-table.tsx:57-65 | the rows never have more distinct ids than rows; the counts are equal exactly when no id repeats, which is what the size comparisons of the flags rely on |
| JsArray.ClampIndex | src/components/dashboard/properties/properties-table.tsx:197 | slice's index resolution: the result lies in `[0, len]`; an in-range index is kept; a negative index counts back from the end; anything beyond is clamped |
| JsArray.Slice | src/components/dashboard/properties/properties-table.tsx:197 | a slice holds `final - k` elements when the resolved end `final` lies after the resolved start `k`, and none otherwise; element `i` is the source's element `k + i` |
| JsArray.SliceByCopy | src/components/dashboard/properties/properties-table.tsx:197 | the standard's copy loop (advance a cursor from the resolved start to the resolved end, appending each element) yields exactly `Slice` |
| Pagination.ApplyPagination | src/components/dashboard/properties/properties-table.tsx:196-198 | for page `>= 0` and page size `> 0`, the page has `min(rowsPerPage, max(0, rows - page*rowsPerPage))` rows, and they are the contiguous run starting at offset `page*rowsPerPage`, in order; an offset at or past the end gives the empty page without failing |
| Pagination.PagesTile | src/components/dashboard/properties/properties-table.tsx:196-198 | concatenating pages `0..k` in order gives the first `min(|rows|, (k+1)*rowsPerPage)` rows, so pages neither overlap nor skip rows |
| Pagination.AppendPage | src/components/dashboard/properties/properties-table.tsx:196-198 | page `k` starts exactly where the first `k` pages end |
| Pagination.RowOnItsPage | src/components/dashboard/properties/properties-table.tsx:196-198 | every row `i` appears on page `i / rowsPerPage`, at position `i % rowsPerPage` |
| Pagination.InitialPageState | src/components/dashboard/properties/properties-table.tsx:67-68 | the table starts on page 0 with the smallest page size the control offers (5 of 5, 10, 25) |
| Pagination.SetPage | src/components/dashboard/properties/properties-table.tsx:186 | a page change sets the page to the reported number and leaves the page size as it was |
| Pagination.SetRowsPerPage | src/components/dashboard/properties/properties-table.tsx:187 | a page-size change sets the page size and leaves the page as it was; nothing clamps or resets it |
| Pagination.ResizeCanStrandPage | src/components/dashboard/properties/properties-table.tsx:187 | because the page is kept, growing the page size to cover the whole list while on a later page leaves no rows visible, though the list is not empty |
| Selection.DeriveFlags | src/components/dashboard/properties/properties-table.tsx:62-65 | `any` iff something is selected; `one` iff exactly one is; `some` iff `0 < |selected| < |rows|`; `all` iff the list is non-empty and the counts agree; `one` implies `any`; `some` and `all` never hold together; an empty list is never "all" |
| Selection.SubsetSize | src/components/dashboard/properties/properties-table.tsx:62-65 | a subset of the ids is no larger than the id set, and equally large only when it is the id set; this is what turns the flags' size tests into statements about sets |
| Selection.CheckboxStates | src/components/dashboard/properties/properties-table.tsx:62-65 | when the selection is drawn from the list's distinct ids, the flags put the header checkbox in exactly one of three states (clear, indeterminate, checked), and "all" holds exactly when every id is selected |
| Selection.RepeatedIdsNeverAll | src/components/dashboard/properties/properties-table.tsx:57-65 | with a repeated id, no selection of the list's ids ever makes "all" hold, because the id set is smaller than the row count |
| Selection.Header | src/components/dashboard/properties/properties-table.tsx:96-125 | the header is the bulk-action row exactly when something is selected, showing the count, Delete first and Edit after it exactly when one id is selected, each once; otherwise it shows the seven column titles |
| Selection.EditTargetsOneProperty | src/components/dashboard/properties/properties-table.tsx:108-112 | whenever Edit is offered, the selection is a single id |
| Selection.HeaderCheckbox | src/components/dashboard/properties/properties-table.tsx:84-86 | the header checkbox is checked exactly when the list is non-empty and the selection size equals the row count, indeterminate exactly when `0 < |selected| < |rows|`, and never both |
| Selection.CheckboxChanged | src/components/dashboard/properties/properties-table.tsx:87-93 | checking asks to add and unchecking to remove; the header box addresses all rows; a row box, wired the same way at lines 137-143, addresses only its own id |
| SelectValues.RecordNone | src/components/dashboard/properties/properties-table.tsx:71-74 | the `reduce` fold adds every row id to the accumulator with value `'None'`, and keeps the other keys and their values |
| SelectValues.Init | src/components/dashboard/properties/properties-table.tsx:70-75 | the initial map's keys are exactly the row ids, and every value is `'None'` |
| SelectValues.Update | src/components/dashboard/properties/properties-table.tsx:164 | the spread update maps the row's id to the chosen value and leaves every other key and value unchanged; it adds the id if the map lacked it |
| SelectValues.Lookup | src/components/dashboard/properties/properties-table.tsx:162 | reading a row's value gives the stored value when the id is a key, and undefined otherwise |
| SelectValues.UpdatesCommute | src/components/dashboard/properties/properties-table.tsx:164 | choices made on two different rows give the same map in either order |
| SelectValues.LastChoiceWins | src/components/dashboard/properties/properties-table.tsx:164 | a second choice on the same row overrides the first |
| SelectValues.ChannelOptions | src/components/dashboard/properties/properties-table.tsx:166-173 | a row's selector offers `'None'` first, then each of the row's linked channels in order |
| SelectValues.OfferedChoicesAreValid | src/components/dashboard/properties/properties-table.tsx:166-173 | every value a selector offers is `'None'` or a channel linked to that row |
| PropertiesTable.Mount | src/components/dashboard/properties/properties-table.tsx:67-75 | the state on mount is page 0, page size 5, and `'None'` under exactly the ids of the rows present at mount |
| PropertiesTable.Handle | src/components/dashboard/properties/properties-table.tsx:84-191 | each event changes at most its own part of the state. A page event sets only the page, a page-size event only the page size. A channel event gives that id the chosen value and leaves every other id's value as it was. A checkbox event sends exactly the request `CheckboxChanged` gives for that box. Delete hands the current selection to `onDelete` and changes nothing, and only while something is selected |
| PropertiesTable.Render | src/components/dashboard/properties/properties-table.tsx:77-181 | the body has one row per row of the current page, in order. Each row is checked exactly when its id is selected. Its selector's `value` is that id's entry in the channel map, and the option it selects is the one `SelectedOption` picks from that value and the row's options. It offers exactly `ChannelOptions` of its row. The avatar, address and price cells carry that row's picture handle, `city, state, country` and prices. Header and header checkbox follow the selection |
| PropertiesTable.BodyFollowsRowIds | src/components/dashboard/properties/properties-table.tsx:129-133 | on a valid page, body row `i` carries `rowIds[page*rowsPerPage + i]` |
| PropertiesTable.MountShowsNoChannel | src/components/dashboard/properties/properties-table.tsx:70-75 | right after mount every shown row's selector has `value` `'None'` and shows `'None'` |
| PropertiesTable.ChoiceShowsOnlyInItsRow | src/components/dashboard/properties/properties-table.tsx:162-164 | after a channel choice, rows with that id get the chosen `value` and select it when they offer it (blank otherwise), and every other row keeps the `value` and selected option it had before |
| PropertiesTable.LaterRowsAreNotInitialised | src/components/dashboard/properties/properties-table.tsx:159-162 | in any state, a row whose id the channel map lacks (an id first seen after mount and not chosen for since) has an undefined `value` prop while the selector selects its default `'None'` |
| PropertiesTable.SelectedOption | src/components/dashboard/properties/properties-table.tsx:159-173 | the selector selects `'None'` for an undefined `value`, the option carrying the value when there is one, and nothing (blank) when no option carries it; the result is always blank or an offered option |
| PropertiesTable.UnofferedChoiceShowsBlank | src/components/dashboard/properties/properties-table.tsx:159-173 | a row whose stored choice is not among its options (its channel link vanished in a later list, or a same-id row chose it) shows a blank selector |
| PropertiesTable.ResizeCanEmptyBody | src/components/dashboard/properties/properties-table.tsx:187 | a page-size change on a later page can leave the rendered body empty for a non-empty list |

## Left out

- The selection hook (`useSelection`: `selectAll`, `deselectAll`, `selectOne`, `deselectOne`) is not part of this model. Its source is not available. The selection is an input set, and checkbox changes produce request values.
- React and MUI rendering (cards, table cells, avatar, select and pagination widgets, styling) is left out. It is presentation over a third-party library. The rendered rows keep the data the cells show, except the formatted dates. The selector is reduced to which option it selects: the option's label (`channel : account`) and MUI's out-of-range warning for an unoffered value are not modelled.
- Date cells are left out. They are formatted by the `dayjs` library. Timestamps are kept as opaque integers.
- `parseInt` of the page-size string is a browser builtin. The page-size event carries an integer.
- Pagination uses unbounded integers. JavaScript numbers are doubles, which lose precision for offsets beyond 2^53.
- The `count` prop is passed straight to the pagination control, so it is left out. So are the unused `page` and `rowsPerPage` props.
- The route registry in `src/paths.ts` is left out. It is a constant table with no behaviour.
- SelectValues.Lookup: the channel map is a plain JavaScript object, modelled as a map without a prototype. Reading an absent id that names an `Object.prototype` member (`constructor`, `toString`, `__proto__`, …) returns that inherited member in the source, not undefined; such ids are outside the model.
- SelectValues.RecordNone: does not model JavaScript's special treatment of the key `__proto__`, which plain assignment does not store as an own key.
- SelectValues.Init: built on that fold, so its "keys are exactly the row ids" does not hold in the source for a row whose id is `__proto__`.
- PropertiesTable.Mount: its initial channel map comes from the same fold and shares that `__proto__` gap.

=== FILE: js_array.dfy ===
/**
 * The part of ECMA-262's `Array.prototype.slice ( start, end )` that the
 * table relies on, for integral arguments.
 */
module JsArray {

  /**
   * Resolves a relative index against a length: a negative index counts back
   * from the end, and the result is clamped to `[0, len]`.
   */
  function ClampIndex(relative: int, len: nat): (k: nat)
    ensures k <= len
    ensures 0 <= relative <= len ==> k == relative
    ensures len <= relative ==> k == len
    ensures relative < 0 && 0 <= len + relative ==> k == len + relative
    ensures len + relative <= 0 ==> k == 0
  {
    if relative < 0 then
      (if len + relative > 0 then len + relative else 0)
    else if relative < len then relative
    else len
  }

  /**
   * `s.slice(start, end)`: the elements from the resolved start up to, not
   * including, the resolved end; empty when the end does not lie after the start.
   */
  function Slice<T>(s: seq<T>, start: int, end: int): (r: seq<T>)
    ensures var k, final := ClampIndex(start, |s|), ClampIndex(end, |s|);
      && |r| == (if k < final then final - k else 0)
      && forall i :: 0 <= i < |r| ==> r[i] == s[k + i]
  {
    var k, final := ClampIndex(start, |s|), ClampIndex(end, |s|);
    if k < final then s[k..final] else []
  }

  /**
   * The standard's own formulation: resolve both indices, then copy one
   * element at a time while the cursor is below the final index.
   */
  method SliceByCopy<T>(s: seq<T>, start: int, end: int) returns (a: seq<T>)
    ensures a == Slice(s, start, end)
  {
    var first := ClampIndex(start, |s|);
    var final := ClampIndex(end, |s|);
    var k := first;
    a := [];
    while k < final
      invariant first <= k <= |s|
      invariant first < final ==> k <= final
      invariant final <= first ==> k == first
      invariant |a| == k - first
      invariant forall i :: 0 <= i < |a| ==> a[i] == s[first + i]
    {
      a := a + [s[k]];
      k := k + 1;
    }
    assert |a| == |Slice(s, start, end)|;
  }
}

=== FILE: options.dfy ===
/** An optional value: stands for a JavaScript value that may be `undefined`. */
module Options {

  datatype Option<+T> = None | Some(value: T) {

    /** The wrapped value, or `default` when there is none. */
    function GetOr(default: T): T {
      match this
      case Some(v) => v
      case None => default
    }
  }
}

=== FILE: pagination.dfy ===
/** The visible page of the table and the page state that selects it. */
module Pagination {
  import opened Properties
  import JsArray

  function Min(a: int, b: int): int { if a <= b then a else b }

  function Max(a: int, b: int): int { if a <= b then b else a }

  /**
   * `applyPagination`: the rows of page `page` when each page holds
   * `rowsPerPage` rows, as the slice `[page * rowsPerPage, page * rowsPerPage + rowsPerPage)`.
   * For a non-negative page and a positive page size it is the contiguous run
   * of rows starting at the page's offset, clipped to the list; an offset at or
   * past the end gives the empty page rather than a failure.
   */
  function ApplyPagination(rows: seq<Property>, page: int, rowsPerPage: int): (r: seq<Property>)
    ensures page >= 0 && rowsPerPage > 0 ==>
      |r| == Min(rowsPerPage, Max(0, |rows| - page * rowsPerPage))
    ensures page >= 0 && rowsPerPage > 0 ==>
      forall i :: 0 <= i < |r| ==> r[i] == rows[page * rowsPerPage + i]
    ensures page * rowsPerPage >= |rows| ==> r == []
  {
    var start := page * rowsPerPage;
    JsArray.Slice(rows, start, start + rowsPerPage)
  }

  /** Pages `0..k` of `rows`, concatenated in order. */
  function PagesThrough(rows: seq<Property>, rowsPerPage: int, k: nat): seq<Property> {
    if k == 0 then ApplyPagination(rows, 0, rowsPerPage)
    else PagesThrough(rows, rowsPerPage, k - 1) + ApplyPagination(rows, k, rowsPerPage)
  }

  /**
   * Pages tile the list: reading pages `0..k` in order gives exactly the first
   * `(k + 1) * rowsPerPage` rows (or all of them), so no row is skipped or repeated.
   */
  lemma {:induction false} PagesTile(rows: seq<Property>, rowsPerPage: int, k: nat)
    requires rowsPerPage > 0
    ensures PagesThrough(rows, rowsPerPage, k) == rows[..Min(|rows|, (k + 1) * rowsPerPage)]
  {
    if k == 0 {
      AppendPage(rows, rowsPerPage, 0);
    } else {
      PagesTile(rows, rowsPerPage, k - 1);
      assert (k - 1 + 1) * rowsPerPage == k * rowsPerPage;
      assert (k + 1) * rowsPerPage == k * rowsPerPage + rowsPerPage;
      AppendPage(rows, rowsPerPage, k);
    }
  }

  /** Page `k` continues the list exactly where the pages before it stop. */
  lemma AppendPage(rows: seq<Property>, rowsPerPage: int, k: nat)
    requires rowsPerPage > 0
    ensures rows[..Min(|rows|, k * rowsPerPage)] + ApplyPagination(rows, k, rowsPerPage)
         == rows[..Min(|rows|, k * rowsPerPage + rowsPerPage)]
  {
  }

  /** Row `i` is shown on page `i / rowsPerPage`, at position `i % rowsPerPage`. */
  lemma RowOnItsPage(rows: seq<Property>, rowsPerPage: int, i: int)
    requires rowsPerPage > 0 && 0 <= i < |rows|
    ensures var page := ApplyPagination(rows, i / rowsPerPage, rowsPerPage);
      i % rowsPerPage < |page| && page[i % rowsPerPage] == rows[i]
  {
    var p, j := i / rowsPerPage, i % rowsPerPage;
    assert p * rowsPerPage + j == i;
    assert p >= 0;
  }

  /** The page index and page size the table holds. */
  datatype PageState = PageState(page: int, rowsPerPage: int)

  /** The page sizes the pagination control offers. */
  const RowsPerPageOptions: seq<int> := [5, 10, 25]

  /** A freshly mounted table is on the first page with the smallest offered page size. */
  function InitialPageState(): (s: PageState)
    ensures s.page == 0
    ensures s.rowsPerPage in RowsPerPageOptions
    ensures forall n :: n in RowsPerPageOptions ==> s.rowsPerPage <= n
  {
    PageState(0, 5)
  }

  /** A page change sets the page and keeps the page size. */
  function SetPage(s: PageState, n: int): (s': PageState)
    ensures s'.page == n
    ensures s'.rowsPerPage == s.rowsPerPage
  {
    s.(page := n)
  }

  /** A page-size change sets the page size and keeps the page, without clamping it. */
  function SetRowsPerPage(s: PageState, n: int): (s': PageState)
    ensures s'.rowsPerPage == n
    ensures s'.page == s.page
  {
    s.(rowsPerPage := n)
  }

  /** The rows the page state selects. */
  function Visible(rows: seq<Property>, s: PageState): seq<Property> {
    ApplyPagination(rows, s.page, s.rowsPerPage)
  }

  /**
   * Since the page is kept, growing the page size can leave the table on a
   * page past the end: it then shows no rows even though the list is not empty.
   */
  lemma ResizeCanStrandPage(rows: seq<Property>, s: PageState, n: int)
    requires s.page > 0 && n >= |rows| && |rows| > 0
    ensures Visible(rows, SetRowsPerPage(s, n)) == []
  {
  }
}

=== FILE: properties.dfy ===
/** The property records the table displays, and the id list derived from them. */
module Properties {

  /** A postal address; the table shows city, state and country. */
  datatype Address = Address(city: string, state: string, country: string, street: string)

  /** A link from a property to an account on an external channel (a listing platform). */
  datatype ExternalId = ExternalId(channel: string, account: string)

  /** One property record. Buy and sell times are timestamps, kept abstract as integers. */
  datatype Property = Property(
    id: string,
    picture: string,
    pictureHandle: string,
    address: Address,
    buyTime: int,
    buyPrice: string,
    sellTime: int,
    sellPrice: string,
    externalIds: seq<ExternalId>
  )

  /** The ids of `rows`, in order, as `rows.map(property => property.id)` computes them. */
  function RowIds(rows: seq<Property>): (ids: seq<string>)
    ensures |ids| == |rows|
    ensures forall i :: 0 <= i < |rows| ==> ids[i] == rows[i].id
  {
    if rows == [] then [] else [rows[0].id] + RowIds(rows[1..])
  }

  /** The set of ids occurring in `rows`. */
  function IdSet(rows: seq<Property>): (ids: set<string>)
    ensures forall i :: 0 <= i < |rows| ==> rows[i].id in ids
    ensures forall id :: id in ids ==> id in RowIds(rows)
  {
    set id | id in RowIds(rows)
  }

  /** No two rows share an id. */
  predicate DistinctIds(rows: seq<Property>) {
    forall i, j :: 0 <= i < j < |rows| ==> rows[i].id != rows[j].id
  }

  /** Splitting off the first row splits off its id. */
  lemma IdSetCons(rows: seq<Property>)
    requires rows != []
    ensures IdSet(rows) == {rows[0].id} + IdSet(rows[1..])
  {
  }

  /** A list has distinct ids exactly when its tail does and its head id is new. */
  lemma DistinctIdsCons(rows: seq<Property>)
    requires rows != []
    ensures DistinctIds(rows) <==> DistinctIds(rows[1..]) && rows[0].id !in IdSet(rows[1..])
  {
  }

  /**
   * A list never has more distinct ids than rows, and has exactly as many
   * precisely when its ids are pairwise different.
   */
  lemma {:induction false} IdSetSize(rows: seq<Property>)
    ensures |IdSet(rows)| <= |rows|
    ensures |IdSet(rows)| == |rows| <==> DistinctIds(rows)
  {
    if rows == [] {
      assert IdSet(rows) == {};
    } else {
      var t := rows[1..];
      IdSetCons(rows);
      DistinctIdsCons(rows);
      IdSetSize(t);
      if rows[0].id in IdSet(t) {
        assert IdSet(rows) == IdSet(t);
      } else {
        assert |IdSet(rows)| == |IdSet(t)| + 1;
      }
    }
  }
}

=== FILE: properties_table.dfy ===
/**
 * The `PropertiesTable` component: the state it owns, how it answers user
 * events, and the header and body rows it renders from that state, the rows
 * and the current selection.
 */
module PropertiesTable {
  import opened Options
  import opened Properties
  import opened Pagination
  import opened Selection
  import SelectValues

  /** The state the component owns: the page state and the per-row channel choices. */
  datatype TableState = TableState(paging: PageState, selectValues: map<string, string>)

  /**
   * The state on first mount: first page, five rows per page, and `'None'` for
   * every id of the rows present at mount. Later row lists do not reset it.
   */
  function Mount(rows: seq<Property>): (s: TableState)
    ensures s.paging.page == 0 && s.paging.rowsPerPage == 5
    ensures s.selectValues.Keys == IdSet(rows)
    ensures forall id :: id in IdSet(rows) ==> s.selectValues[id] == SelectValues.NoChannel
  {
    TableState(InitialPageState(), SelectValues.Init(rows))
  }

  /** A user interaction the table receives. */
  datatype Event =
    | PageChanged(page: int)
    | RowsPerPageChanged(rowsPerPage: int)
    | ChannelChanged(id: string, value: string)
    | CheckboxToggled(box: Checkbox, checked: bool)
    | DeleteClicked

  /** What an event asks of the table's collaborators besides its own state. */
  datatype Effect =
    | NoEffect
    | Request(req: SelectionRequest)
    | DeleteCall(ids: set<string>)

  datatype Step = Step(state: TableState, effect: Effect)

  /**
   * Answers one event. Each event changes at most one part of the state;
   * checkbox changes go to the selection hook; Delete, present only while
   * something is selected, hands the current selection to `onDelete` and
   * changes nothing itself.
   */
  function Handle(s: TableState, selected: set<string>, rows: seq<Property>, e: Event): (r: Step)
    ensures r.state.paging.page != s.paging.page ==> e.PageChanged?
    ensures r.state.paging.rowsPerPage != s.paging.rowsPerPage ==> e.RowsPerPageChanged?
    ensures r.state.selectValues != s.selectValues ==> e.ChannelChanged?
    ensures e.PageChanged? ==> r.state.paging.page == e.page
    ensures e.RowsPerPageChanged? ==> r.state.paging.rowsPerPage == e.rowsPerPage
    ensures e.ChannelChanged? ==> SelectValues.Lookup(r.state.selectValues, e.id) == Some(e.value)
    ensures e.ChannelChanged? ==> forall k :: k != e.id ==>
      SelectValues.Lookup(r.state.selectValues, k) == SelectValues.Lookup(s.selectValues, k)
    ensures r.effect.Request? <==> e.CheckboxToggled?
    ensures e.CheckboxToggled? ==> r.effect.req == CheckboxChanged(e.box, e.checked)
    ensures r.effect.DeleteCall? <==> e.DeleteClicked? && |selected| > 0
    ensures r.effect.DeleteCall? ==> r.effect.ids == selected && r.state == s
  {
    match e
    case PageChanged(n) =>
      Step(s.(paging := SetPage(s.paging, n)), NoEffect)
    case RowsPerPageChanged(n) =>
      Step(s.(paging := SetRowsPerPage(s.paging, n)), NoEffect)
    case ChannelChanged(id, v) =>
      Step(s.(selectValues := SelectValues.Update(s.selectValues, id, v)), NoEffect)
    case CheckboxToggled(box, checked) =>
      Step(s, Request(CheckboxChanged(box, checked)))
    case DeleteClicked =>
      if Header(selected, rows).BulkActions? then Step(s, DeleteCall(selected))
      else Step(s, NoEffect)
  }

  /**
   * One rendered body row. `channel` is the selector's `value` prop, undefined
   * for an id the map lacks. `shown` is the value of the option the selector
   * marks as selected (the option's label is `channel : account`), or `""`
   * when no option is selected and the selector is blank.
   */
  datatype RowView = RowView(
    id: string,
    checked: bool,
    avatar: string,
    place: string,
    buyPrice: string,
    sellPrice: string,
    channel: Option<string>,
    shown: string,
    channelOptions: seq<string>
  )

  /** What the table renders: the header checkbox, the header row and the body rows. */
  datatype View = View(headerBox: CheckboxState, header: HeaderRow, body: seq<RowView>)

  /** The address cell: city, state and country separated by commas. */
  function Place(a: Address): string {
    a.city + ", " + a.state + ", " + a.country
  }

  /**
   * The option a selector marks as selected. An undefined `value` leaves the
   * selector uncontrolled, so it selects its `defaultValue`, `'None'`. A
   * defined value selects the option carrying it; when no option carries it
   * nothing is selected and the selector is blank (`""`).
   */
  function SelectedOption(value: Option<string>, options: seq<string>): (o: string)
    requires SelectValues.NoChannel in options
    ensures o == "" || o in options
    ensures value.None? ==> o == SelectValues.NoChannel
    ensures value.Some? && value.value in options ==> o == value.value
    ensures value.Some? && value.value !in options ==> o == ""
  {
    var v := value.GetOr(SelectValues.NoChannel);
    if v in options then v else ""
  }

  function RenderRow(row: Property, selected: set<string>, selectValues: map<string, string>): RowView {
    var value := SelectValues.Lookup(selectValues, row.id);
    RowView(
      row.id,
      row.id in selected,
      row.pictureHandle,
      Place(row.address),
      row.buyPrice,
      row.sellPrice,
      value,
      SelectedOption(value, SelectValues.ChannelOptions(row)),
      SelectValues.ChannelOptions(row))
  }

  /**
   * The rendered table: the body holds one row per row of the current page, in
   * order, each checked exactly when its id is selected and showing its
   * chosen channel.
   */
  function Render(rows: seq<Property>, selected: set<string>, s: TableState): (v: View)
    ensures v.headerBox == HeaderCheckbox(selected, rows)
    ensures v.header == Header(selected, rows)
    ensures |v.body| == |Visible(rows, s.paging)|
    ensures forall i :: 0 <= i < |v.body| ==>
      var row := Visible(rows, s.paging)[i];
      && v.body[i].id == row.id
      && (v.body[i].checked <==> row.id in selected)
      && v.body[i].channel == SelectValues.Lookup(s.selectValues, row.id)
      && v.body[i].shown == SelectedOption(SelectValues.Lookup(s.selectValues, row.id), SelectValues.ChannelOptions(row))
      && v.body[i].channelOptions == SelectValues.ChannelOptions(row)
      && v.body[i].avatar == row.pictureHandle
      && v.body[i].place == Place(row.address)
      && v.body[i].buyPrice == row.buyPrice
      && v.body[i].sellPrice == row.sellPrice
  {
    var page := Visible(rows, s.paging);
    View(
      HeaderCheckbox(selected, rows),
      Header(selected, rows),
      seq(|page|, i requires 0 <= i < |page| => RenderRow(page[i], selected, s.selectValues)))
  }

  /**
   * For a valid page the body lists the ids of the rows at the page's offset,
   * in list order.
   */
  lemma BodyFollowsRowIds(rows: seq<Property>, selected: set<string>, s: TableState)
    requires s.paging.page >= 0 && s.paging.rowsPerPage > 0
    ensures var body := Render(rows, selected, s).body;
      var start := s.paging.page * s.paging.rowsPerPage;
      forall i :: 0 <= i < |body| ==> 0 <= start + i < |rows| && body[i].id == RowIds(rows)[start + i]
  {
  }

  /** Right after mount, every shown row's selector reads `'None'`. */
  lemma MountShowsNoChannel(rows: seq<Property>, selected: set<string>)
    ensures forall r :: r in Render(rows, selected, Mount(rows)).body ==>
      r.channel == Some(SelectValues.NoChannel) && r.shown == SelectValues.NoChannel
  {
  }

  /**
   * A channel choice shows in the chosen row and in no other: every other
   * row keeps the value it showed before.
   */
  lemma ChoiceShowsOnlyInItsRow(rows: seq<Property>, selected: set<string>, s: TableState, id: string, value: string)
    ensures var after := Handle(s, selected, rows, ChannelChanged(id, value)).state;
      var before, now := Render(rows, selected, s).body, Render(rows, selected, after).body;
      && |now| == |before|
      && forall i :: 0 <= i < |now| ==>
           && now[i].channel == (if now[i].id == id then Some(value) else before[i].channel)
           && now[i].shown == (if now[i].id != id then before[i].shown
                               else if value in now[i].channelOptions then value
                               else "")
  {
  }

  /**
   * A row whose id the channel map lacks gets an undefined `value`, so its
   * selector shows its default, `'None'`. The map is built on first mount
   * only and each choice adds just the chosen id, so this is the case for any
   * row whose id arrives in a later list and has not been chosen for since.
   */
  lemma LaterRowsAreNotInitialised(rows: seq<Property>, selected: set<string>, s: TableState, i: int)
    requires 0 <= i < |Render(rows, selected, s).body|
    requires Render(rows, selected, s).body[i].id !in s.selectValues
    ensures Render(rows, selected, s).body[i].channel == None
    ensures Render(rows, selected, s).body[i].shown == SelectValues.NoChannel
  {
  }

  /**
   * A stored choice the row no longer offers (its channel link disappeared in
   * a later list, or another row with the same id chose it) leaves the
   * selector blank.
   */
  lemma UnofferedChoiceShowsBlank(rows: seq<Property>, selected: set<string>, s: TableState, i: int)
    requires 0 <= i < |Render(rows, selected, s).body|
    requires var r := Render(rows, selected, s).body[i];
      r.id in s.selectValues && s.selectValues[r.id] !in r.channelOptions
    ensures Render(rows, selected, s).body[i].shown == ""
  {
  }

  /**
   * Growing the page size keeps the page, so a table on a later page can end
   * up showing no rows of a non-empty list.
   */
  lemma ResizeCanEmptyBody(rows: seq<Property>, selected: set<string>, s: TableState, n: int)
    requires s.paging.page > 0 && n >= |rows| > 0
    ensures Render(rows, selected, Handle(s, selected, rows, RowsPerPageChanged(n)).state).body == []
  {
  }
}

=== FILE: select_values.dfy ===
/**
 * The per-row channel choice (`selectValues`): a map from property id to the
 * channel chosen in that row's selector, `'None'` when no channel is chosen.
 */
module SelectValues {
  import opened Properties
  import opened Options

  /** The sentinel value of a row with no chosen channel. */
  const NoChannel: string := "None"

  /**
   * The `reduce` that builds the initial map: folding the rows from the left,
   * each step records `'None'` under the row's id. Keys already in `acc` and not
   * among the rows keep their values.
   */
  function RecordNone(acc: map<string, string>, rows: seq<Property>): (m: map<string, string>)
    ensures m.Keys == acc.Keys + IdSet(rows)
    ensures forall id :: id in IdSet(rows) ==> m[id] == NoChannel
    ensures forall id :: id in acc && id !in IdSet(rows) ==> m[id] == acc[id]
    decreases |rows|
  {
    if rows == [] then acc
    else
      IdSetCons(rows);
      RecordNone(acc[rows[0].id := NoChannel], rows[1..])
  }

  /** The initial map: exactly the ids of the rows, each with no chosen channel. */
  function Init(rows: seq<Property>): (m: map<string, string>)
    ensures m.Keys == IdSet(rows)
    ensures forall id :: id in m ==> m[id] == NoChannel
  {
    RecordNone(map[], rows)
  }

  /**
   * `{ ...selectValues, [id]: value }`: `id` now maps to `value` and every
   * other entry is kept. Any string is accepted; only the selector restricts
   * what a user can pick.
   */
  function Update(m: map<string, string>, id: string, value: string): (m': map<string, string>)
    ensures id in m' && m'[id] == value
    ensures m'.Keys == m.Keys + {id}
    ensures forall k :: k in m && k != id ==> k in m' && m'[k] == m[k]
  {
    m[id := value]
  }

  /** `selectValues[id]`: the chosen value, or undefined for an id the map lacks. */
  function Lookup(m: map<string, string>, id: string): (v: Option<string>)
    ensures v.Some? <==> id in m
    ensures v.Some? ==> v.value == m[id]
  {
    if id in m then Some(m[id]) else None
  }

  /** Choices on two different rows do not interfere: their order does not matter. */
  lemma UpdatesCommute(m: map<string, string>, a: string, va: string, b: string, vb: string)
    requires a != b
    ensures Update(Update(m, a, va), b, vb) == Update(Update(m, b, vb), a, va)
  {
  }

  /** A second choice on the same row replaces the first. */
  lemma LastChoiceWins(m: map<string, string>, id: string, v1: string, v2: string)
    ensures Update(Update(m, id, v1), id, v2) == Update(m, id, v2)
  {
  }

  /** The values a row's selector offers: `'None'`, then each linked channel in order. */
  function ChannelOptions(row: Property): (opts: seq<string>)
    ensures |opts| == |row.externalIds| + 1
    ensures opts[0] == NoChannel
    ensures forall i :: 0 <= i < |row.externalIds| ==> opts[i + 1] == row.externalIds[i].channel
  {
    [NoChannel] + seq(|row.externalIds|, i requires 0 <= i < |row.externalIds| => row.externalIds[i].channel)
  }

  /** A row's selector offers nothing but `'None'` and the channels linked to that row. */
  lemma OfferedChoicesAreValid(row: Property, v: string)
    requires v in ChannelOptions(row)
    ensures v == NoChannel || exists e :: e in row.externalIds && e.channel == v
  {
  }
}

=== FILE: selection.dfy ===
/**
 * What the table derives from the current selection: the four flags, the
 * header row it shows, the header checkbox, and the requests its checkboxes
 * send to the selection hook. The hook itself is not part of this model; the
 * selection reaches the table as a set of ids.
 */
module Selection {
  import opened Properties

  /** The four flags the table derives from the selection size and the row count. */
  datatype Flags = Flags(any: bool, one: bool, some: bool, all: bool)

  /**
   * `selectedAny`, `selectedOne`, `selectedSome`, `selectedAll`. An undefined
   * selection reads as size 0, which gives the same flags as the empty set.
   */
  function DeriveFlags(selected: set<string>, rows: seq<Property>): (f: Flags)
    ensures f.any <==> |selected| > 0
    ensures f.one <==> |selected| == 1
    ensures f.some <==> 0 < |selected| < |rows|
    ensures f.all <==> |rows| > 0 && |selected| == |rows|
    ensures f.one ==> f.any
    ensures !(f.some && f.all)
    ensures rows == [] ==> !f.all
  {
    var size := |selected|;
    var any := size > 0;
    Flags(any, size == 1, any && size < |rows|, |rows| > 0 && size == |rows|)
  }

  /** A subset is no larger than its superset, and equally large only when equal. */
  lemma {:induction false} SubsetSize<T>(a: set<T>, b: set<T>)
    requires a <= b
    ensures |a| <= |b|
    ensures |a| == |b| ==> a == b
    decreases |a|
  {
    if a == {} {
      if b != {} {
        var y :| y in b;
        assert |b| >= 1 by { assert {y} <= b; }
      }
    } else {
      var x :| x in a;
      SubsetSize(a - {x}, b - {x});
      if |a| == |b| {
        assert a - {x} == b - {x};
        assert a == (a - {x}) + {x} && b == (b - {x}) + {x};
      }
    }
  }

  /**
   * When every selected id belongs to the list and the ids are distinct, the
   * header checkbox is in exactly one of three states: clear, indeterminate or
   * checked; and it is checked exactly when every row of a non-empty list is selected.
   */
  lemma CheckboxStates(selected: set<string>, rows: seq<Property>)
    requires selected <= IdSet(rows) && DistinctIds(rows)
    ensures var f := DeriveFlags(selected, rows);
      && (!f.any || f.some || f.all)
      && (f.all <==> rows != [] && selected == IdSet(rows))
  {
    IdSetSize(rows);
    SubsetSize(selected, IdSet(rows));
  }

  /**
   * With a repeated id the list has fewer ids than rows, so no selection drawn
   * from it can make the header checkbox read as checked.
   */
  lemma RepeatedIdsNeverAll(selected: set<string>, rows: seq<Property>)
    requires selected <= IdSet(rows) && !DistinctIds(rows)
    ensures !DeriveFlags(selected, rows).all
  {
    IdSetSize(rows);
    SubsetSize(selected, IdSet(rows));
  }

  /** The bulk actions offered while something is selected. */
  datatype Action = Delete | Edit

  /** The header row: either the column titles or the bulk-action row. */
  datatype HeaderRow =
    | ColumnTitles(titles: seq<string>)
    | BulkActions(selectedCount: nat, actions: seq<Action>)

  const ColumnNames: seq<string> :=
    ["Property", "Address", "BuyTime", "BuyPrice", "SellTime", "SellPrice", "External"]

  /**
   * The header shows the bulk-action row (the selection count, Delete, and
   * Edit only for a single selection) while anything is selected, and the
   * column titles otherwise.
   */
  function Header(selected: set<string>, rows: seq<Property>): (h: HeaderRow)
    ensures h.BulkActions? <==> |selected| > 0
    ensures h.ColumnTitles? ==> h.titles == ColumnNames
    ensures h.BulkActions? ==> h.selectedCount == |selected| && Delete in h.actions
    ensures h.BulkActions? ==> (Edit in h.actions <==> |selected| == 1)
    ensures h.BulkActions? ==> |h.actions| == (if |selected| == 1 then 2 else 1) && h.actions[0] == Delete
  {
    var f := DeriveFlags(selected, rows);
    if f.any then
      BulkActions(|selected|, [Delete] + (if f.one then [Edit] else []))
    else
      ColumnTitles(ColumnNames)
  }

  /** When Edit is offered, the selection names exactly one property. */
  lemma EditTargetsOneProperty(selected: set<string>, rows: seq<Property>)
    requires Header(selected, rows).BulkActions? && Edit in Header(selected, rows).actions
    ensures exists id :: selected == {id}
  {
    var id :| id in selected;
    SubsetSize({id}, selected);
  }

  /** The header checkbox: checked and indeterminate flags. */
  datatype CheckboxState = CheckboxState(checked: bool, indeterminate: bool)

  /** The header checkbox is checked for a full selection, indeterminate for a partial one. */
  function HeaderCheckbox(selected: set<string>, rows: seq<Property>): (c: CheckboxState)
    ensures c.checked <==> |rows| > 0 && |selected| == |rows|
    ensures c.indeterminate <==> 0 < |selected| < |rows|
    ensures !(c.checked && c.indeterminate)
  {
    var f := DeriveFlags(selected, rows);
    CheckboxState(f.all, f.some)
  }

  /** The operations of the selection hook that the table invokes. */
  datatype SelectionRequest =
    | SelectAll
    | DeselectAll
    | SelectOne(id: string)
    | DeselectOne(id: string)
  {
    predicate Adds() { SelectAll? || SelectOne? }
  }

  /** A checkbox of the table: the header's, or the one of the row with `id`. */
  datatype Checkbox = HeaderBox | RowBox(id: string)

  /**
   * The request a checkbox change sends: checking adds, unchecking removes;
   * the header box addresses every row and a row box only its own id.
   */
  function CheckboxChanged(box: Checkbox, checked: bool): (req: SelectionRequest)
    ensures req.Adds() <==> checked
    ensures box.HeaderBox? <==> req.SelectAll? || req.DeselectAll?
    ensures box.RowBox? ==> req.id == box.id
  {
    match box
    case HeaderBox => if checked then SelectAll else DeselectAll
    case RowBox(id) => if checked then SelectOne(id) else DeselectOne(id)
  }
}
